=== FILE: README.md ===
# Tic-tac-toe self-play Q-learning trainer, modelled in Dafny

This project models the learning core of a tic-tac-toe trainer, the
`EnhancedTicTacToeAI` class in `AI.py`. An agent playing 'O' learns a tabular
Q-function by playing against a hand-coded expert playing 'X'. The model
covers these parts:

- **Board model** (`board.dfy`, module `BoardModel`). It holds the nine-cell
  board, the eight winning lines and the static cell-to-lines index. Its
  operations are `available_actions`, `check_win` and `is_draw`.
- **Tactics** (`tactics.dfy`, module `Tactics`). These are the two threat
  detectors: the indexed scan of `find_immediate_threats` and the direct line
  scan inside `expert_move`. The module also has `expert_move`,
  `count_potential_wins` and `find_double_threat_move`.
- **Reward shaper** (`rewards.dfy`, module `Rewards`). This is `get_reward`.
- **Q-table** (`qlearning.dfy`, module `QLearning`). It models the default
  dictionary and the clamped temporal-difference update `update_q_table`.
- **Policy** (`policy.dfy`, module `Policy`). It holds the trainer's rates and
  `choose_action`.
- **Training** (`training.dfy`, module `Training`). It models one self-play
  episode, and `train` with its learning-rate decay and progress reports.

## How the model is built

- Boards are immutable sequences of nine `Cell`s. A board doubles as the
  Q-table key. The Q-table is a `map<Board, Row>`, where each row holds nine
  `real`s.
- Where AI.py raises because no cell is left, the model returns
  `None`. This covers `random.choice([])` in `expert_move` and `max([])` in
  `choose_action`.
- A uniform random pick from a set (`random.choice`) becomes an arbitrary
  choice (`:|`). The contract then says what set the pick comes from.
- `random.random()` and the normal jitter in `choose_action` become
  parameters (`coin`, `jitter`). The episode method draws them arbitrarily.
- Every method that changes the trainer takes a `Trainer` value and returns a
  new one.
- An episode also returns its history: one `Round` per pass of the loop,
  holding the board before the agent's move, the agent's cell, its reward
  and the expert's reply. `Played` says that the rounds follow the rules from
  the empty board, and `EpisodeOutcome` ties an episode's total, win flag
  and final board to its history.

The model follows the code as written, including these places where it
does not do what its names and comments suggest:

- **The expert's win step.** `expert_move` places `player` on a copy of the
  board, then tests the real board (AI.py:104-108). So the step fires only
  when `player` already has a line, and then it returns the lowest empty
  cell. With 'O' on cells 3 and 4 and no 'X' threat, `expert_move('O')`
  returns 0, not the winning cell 5 (`Tactics.ExpertMissesWinningCell`).
- **`is_draw`.** It is true for any full board, even one holding a completed
  line (`BoardModel.DrawDoesNotExcludeWin`).
- **`get_reward`'s "last move".** It is the lowest-index cell holding
  `player`, not the move just made.
- **Moves on occupied cells.** No move is checked for an occupied cell. The
  model proves instead that training only ever places marks on empty cells.
  The expert always has an empty cell to answer with.
- **The α decay factor.** The decay uses the literal 0.999 every hundredth
  episode. The unused `alpha_decay` field does not take part.
- **The win rate.** It is the number of wins in the last 1000 episodes divided
  by 10, so it is a true percentage only once 1000 episodes have been played.

## Model

| member | source | states |
|---|---|---|
| BoardModel.PositionThreatsIndexesWinPatterns | AI.py:17-30 | for every cell, the hand-written index lists exactly the winning lines through that cell, and every winning line has three distinct cells |
| BoardModel.Opponent | AI.py:83 | the opponent of any mark is a mark different from it |
| BoardModel.ResetBoard | AI.py:32-33 | after a reset the board holds nine empty cells and no marks |
| BoardModel.EmptyCellsFrom | AI.py:39 | the comprehension from index k yields exactly the empty cells at or after k, in strictly increasing order |
| BoardModel.AvailableActions | AI.py:38-39 | the result holds exactly the indices of empty cells, in strictly increasing order |
| BoardModel.FirstAvailableIsLowest | AI.py:38-39 | the first available action is the lowest empty cell |
| BoardModel.AnyLine | AI.py:42-45 | the pattern loop answers true exactly when some listed line has all three cells equal to the mark |
| BoardModel.CheckWin | AI.py:41-45 | `check_win(p)` holds exactly when some winning line is filled with p |
| BoardModel.IsDraw | AI.py:47-48 | `is_draw` holds exactly when no cell is empty, that is, when there are no available actions |
| BoardModel.DrawDoesNotExcludeWin | AI.py:47-48 | a full board with a completed line still counts as a draw |
| BoardModel.PlaceCounts | AI.py:182 | placing a mark on an empty cell adds one of that mark, removes one empty cell and keeps the other mark's count |
| BoardModel.PlaceKeepsOtherLines | AI.py:198-199 | placing one mark on an empty cell neither creates nor destroys a line of the other mark |
| Tactics.AnyOthersHeld | AI.py:54-59 | the inner loop finds a threat exactly when some listed line has every cell other than pos held by the opponent |
| Tactics.IndexedThreatIsThreat | AI.py:53-59 | through the static index, an empty cell is flagged exactly when some winning line through it has its two other cells held by the opponent |
| Tactics.ThreatScan | AI.py:52-59 | the scan keeps exactly the candidate cells flagged through the index, and keeps them increasing when the candidates are increasing |
| Tactics.ImmediateThreatList | AI.py:50-59 | the threat list is increasing, hence duplicate-free, lies within the available actions, and holds exactly the threat cells |
| Tactics.FindImmediateThreats | AI.py:50-60 | `find_immediate_threats(opp)` is exactly the set of empty cells on a winning line whose other two cells opp holds |
| Tactics.LineThreats | AI.py:92-97 | on a line of three distinct cells, the three checks find exactly its empty cell whose two partners the opponent holds |
| Tactics.PatternScan | AI.py:87-97 | the direct line scan collects exactly the empty cells on a listed line whose other two cells the opponent holds |
| Tactics.ExpertThreats | AI.py:86-97 | the threats `expert_move` collects are exactly the threat cells of the opponent |
| Tactics.ThreatDetectorsAgree | AI.py:87-101 | as sets, the expert's direct scan and `find_immediate_threats` agree |
| Tactics.PriorityOrderIsPermutation | AI.py:111 | the priority order lists each of the nine cells exactly once |
| Tactics.FirstEmptyIn | AI.py:112-114 | the priority loop returns the first empty cell of the order, and nothing only when every listed cell is taken |
| Tactics.PriorityPickFailsOnlyWhenFull | AI.py:110-116 | the priority loop finds nothing only on a full board, so the final random pick is reached only with no cell left |
| Tactics.ExpertFallback | AI.py:103-116 | with no threat, the expert returns nothing only on a full board and otherwise an empty cell. If the mover already has a line, it is the lowest empty cell; otherwise it is the first empty cell in priority order |
| Tactics.ExpertMove | AI.py:82-116 | `expert_move` fails only on a full board and otherwise returns an empty cell. When the opponent has threats it returns one of them; otherwise it returns the fallback cell |
| Tactics.ExpertMissesWinningCell | AI.py:104-108 | with 'O' on 3 and 4, `expert_move('O')` can only return 0, although 'O' on 5 completes a line |
| Tactics.OpenIndicesSplit | AI.py:130-133 | the open lines of a non-empty list are those of its tail, plus one when its first line is open |
| Tactics.CountOpen | AI.py:129-134 | the count is the number of listed lines open for the player, so at most the number of lines; it equals that number exactly when all are open and is 0 exactly when none is |
| Tactics.CountPotentialWins | AI.py:127-134 | `count_potential_wins` is the number of winning lines open for the player, so it lies in [0, 8] |
| Tactics.CountPotentialWinsExtremes | AI.py:127-134 | the count is 8 exactly when every winning line is open for the player and 0 exactly when none is |
| Tactics.EmptyBoardHasEightOpenLines | AI.py:127-134 | on an empty board the count is 8 for any mark |
| Tactics.OwnMarkKeepsLinesOpen | AI.py:130-133 | placing one's own mark on an empty cell never lowers one's count of open lines |
| Tactics.OtherMarkNeverOpensLines | AI.py:130-133 | placing any other mark on an empty cell never raises the count |
| Tactics.FirstDoubleThreat | AI.py:120-125 | the loop returns a candidate whose placement leaves at least two open lines, and nothing only if no candidate does |
| Tactics.FirstDoubleThreatIsLowest | AI.py:120-125 | over increasing candidates, no candidate below the one returned leaves two open lines, so the loop returns the first that does |
| Tactics.FindDoubleThreatMove | AI.py:118-125 | `find_double_threat_move` returns the lowest empty cell where the player's placement leaves at least two open lines, and None only when no empty cell does |
| Rewards.FirstIndexFrom | AI.py:146 | the generator's first hit from index k is a cell holding the mark with none before it from k, and None means no such cell |
| Rewards.LastAction | AI.py:146 | the "last action" is the lowest-index cell holding the player, and None when the player has no cell |
| Rewards.WasThreat | AI.py:149-154 | vacating the cell does not matter: `was_threat` holds exactly when some winning line through the cell has its two other cells held by the opponent |
| Rewards.GetReward | AI.py:136-158 | the reward is one of 50, -50, 20, 1, 0. It is 50 iff the player has a line; else -50 iff the opponent has one; else 20 iff the lowest player cell blocked a line; else 1 iff the board is full; else 0 |
| QLearning.Clip | AI.py:167 | the clamped value lies in [lo, hi]. It is the input when the input is in range, lo when the input is below and hi when it is above |
| QLearning.MaxOf | AI.py:162 | the maximum is an element of the row and no element exceeds it |
| QLearning.Lookup | AI.py:75 | reading a state gives its stored row, or all zeros when the state is unseen; in a bounded table every value read lies in [-50, 50] |
| QLearning.Touch | AI.py:9 | reading a state through the default dictionary adds exactly that key, with a zero row when it was unseen, and keeps every existing row |
| QLearning.TouchKeepsBounded | AI.py:161 | inserting a zero row keeps every estimate within [-50, 50] |
| QLearning.MaxNext | AI.py:162 | the bootstrap term is the largest estimate of the next state when it has a row, and 0 otherwise |
| QLearning.UpdateQ | AI.py:160-167 | after the update, the keys are the old keys plus the state, every other row is unchanged, and every other action of the state keeps its old or zero value. The new estimate is the clamped TD step and lies in [-50, 50], and a bounded table stays bounded |
| QLearning.StepBetween | AI.py:164-166 | with a learning rate in [0, 1], the TD step lands between the current estimate and the target |
| QLearning.UpdateMovesTowardTarget | AI.py:160-167 | with a learning rate in [0, 1] and both ends in range, the updated estimate lies between the old estimate and the TD target |
| QLearning.UpdateAtTargetIsFixed | AI.py:160-167 | an estimate that already equals its TD target is left unchanged |
| Policy.NewTrainerInRange | AI.py:7-15 | a new trainer has an empty table, α 0.5 and ε 0.3, within the maintained ranges |
| Policy.DecayEpsilon | AI.py:71 | the decayed ε is the larger of 0.05 and ε·0.99995: it is at least both and equals one of them. From [0.05, 0.3] it never rises |
| Policy.BestActions | AI.py:75-80 | the tied-best set is non-empty and is exactly the available actions whose jittered estimate reaches the maximum: every member is a maximiser and every maximiser is a member |
| Policy.ChooseAction | AI.py:62-80 | the result fails only on a full board and is otherwise an empty cell. An 'X' threat forces a threat cell and leaves the trainer unchanged. Otherwise ε decays. Exploring gives an expert move; exploiting gives a cell with the maximum jittered estimate and inserts the state's row. The rate ranges and the value clamp are preserved |
| Training.DecayAlpha | AI.py:215-216 | the decayed α is the larger of 0.1 and α·0.999: it is at least both and equals one of them. From [0.1, 0.5] it never rises |
| Training.AlphaAfterStaysInRange | AI.py:214-216 | any number of decays keeps α within [0.1, its start] |
| Training.Window | AI.py:220 | the window is the suffix of the history of length min(length, 1000) |
| Training.Wins | AI.py:224 | the win count is the number of true flags, and never exceeds the number of flags |
| Training.Mean | AI.py:221 | the mean times the number of entries is their sum |
| Training.ProgressAt | AI.py:219-225 | a report carries the number of episodes played, the mean of the windowed rewards, and one tenth of the number of wins in the window |
| Training.SumBounds | AI.py:221 | the sum of entries in [lo, hi] lies between length·lo and length·hi |
| Training.ProgressBounds | AI.py:219-225 | the reported mean reward lies in [-15, 130] and the reported win rate in [0, 100] |
| Training.CountersStep | AI.py:214-219 | the α-decay count grows exactly when ep % 100 == 0 and the report count exactly when ep % 50 == 49 |
| Training.AgentTurn | AI.py:180-188 | on a board that is not full and where 'X' has no line, the agent places on an empty cell, and on an 'X' threat cell whenever one exists. Its reward is `get_reward('O')` of the new board: 50 exactly when 'O' then has a line, otherwise in [0, 20]. The table gains exactly the pre-move state and every other row is kept. Q[state][action] becomes the clamped TD step toward the reward plus γ times the best estimate of the new board, and every other action of the state keeps its old or zero value. ε is unchanged when an 'X' threat forced the move and decays otherwise; α is unchanged and the rate ranges and the value clamp are kept |
| Training.PlayedExtend | AI.py:179-207 | a round played from the board a history has reached, while the game goes on, extends the history to one that was played by the rules, reaches the round's final board and adds the round's reward to the sum |
| Training.ExpertTurn | AI.py:197-205 | on a board with no line and a free cell, the reply is a cell `expert_move('X')` may give and is empty. It gives 'O' no line and adds exactly one 'X'. The trainer is unchanged unless 'X' then has a line; then only the table changes, by the −15 TD update of Q[state][action] toward the new board |
| Training.PlayRound | AI.py:179-205 | a round from a board with no line and a free cell is played by the rules and leaves the board its moves give. It ends the game exactly when the agent's move gave 'O' a line or filled the board, and then the expert does not reply. The agent's reward is 50 exactly when 'O' has a line and otherwise at most 20. Mark counts grow by one per move; a line of 'X' comes with the −15 update |
| Training.Advance | AI.py:179-207 | one round appended to a history awaiting the agent gives a played history reaching the new board, with the round's reward added to the sum; the game ended exactly when the expert did not reply |
| Training.Step | AI.py:179-207 | one pass of the loop either leaves the game going (history, board and reward sum between rounds, with no line and at most four rounds) or ends it: the total is the sum of the agent's rewards plus −15 when 'X' has a line, the win flag holds iff 'O' has a line, and the counts and the loss update are as for the episode |
| Training.PlayEpisode | AI.py:174-208 | the episode returns its history of rounds, played by the rules from the empty board: the agent takes an empty cell, a threat cell when 'X' has one, and earns `get_reward('O')`; the expert replies with a cell `expert_move('X')` may give unless the agent's move ended the game, and the game goes on only while 'X' has no line. The final board is the one the history reaches, and the reward is the sum of the agent's rewards plus −15 when 'X' has a line, in [-15, 130]. The win flag holds iff 'O' has a line, a won episode earns at least 50, and a negative total comes only with a line of 'X'. It ends with a line or a full board, never with lines for both sides; the agent moves 1 to 5 times and 'O' count minus 'X' count is 0 or 1. When 'X' wins, the final table is the result of a −15 TD update toward the final board. The table only gains keys, α is unchanged and the rate ranges and the value clamp are kept |
| Training.Record | AI.py:210-225 | after an episode the reward, flag, final board and history are appended, and a report over the logs so far is added exactly when there is a callback and the episode index is 49 modulo 50 |
| Training.DecayAfterEpisode | AI.py:214-216 | α decays at the end of episode ep exactly when ep % 100 == 0, so the decay count stays that of the episodes so far; the table and ε are untouched |
| Training.ReportBounds | AI.py:219-225 | reports over rewards in [-15, 130] carry the episode number 50(k+1), a mean in [-15, 130] and a rate in [0, 100] |
| Training.RunEpisode | AI.py:173-225 | one pass of the episode loop appends one episode to logs whose every entry is a rule-abiding episode outcome, keeps the report count at episodes/50 with a callback, keeps α equal to its start decayed once per episode with ep % 100 == 0, and the table only gains keys |
| Training.Train | AI.py:169-227 | `train` takes 10000 episodes and no callback by default, and a negative count runs none. There is one reward, win flag, final board and history per episode, and each is the outcome of an episode played by the rules: the reward is the sum of the agent's `get_reward('O')` values plus −15 when 'X' has a line on the final board, it lies in [-15, 130], the flag holds iff 'O' has a line, a won episode earns at least 50, and a negative reward comes only with a line of 'X'. With a callback there are episodes/50 reports; report k is for episode 50(k+1), with the mean and wins/10 over the last at most 1000 episodes, the rate in [0, 100]. α has decayed once per episode with ep % 100 == 0, the table only gains keys, and the rate ranges and the value clamp are preserved |

## Left out

- GUI.py: the tkinter display, click handling, message boxes and the worker
  thread are user interface and concurrency, not learning logic.
- `get_state` is the identity on the board here, since boards are already
  immutable values.
- `priority_positions` and `alpha_decay` are never read by the code, so they
  are not modelled.
- Probability distributions are not modelled: `random.choice`,
  `random.random()` and `np.random.normal`. Picks are arbitrary choices from
  the stated set, and draws are parameters or arbitrary values.
- Floating-point rounding is not modelled, in the Q-update, the α/ε decay or
  `np.mean`. Values are Dafny `real`s.
- Learning quality (convergence, improving win rate) depends on randomness
  and numerics and is not promised by the code.
- Indices outside 0..8 cannot be passed: actions have type `Pos`. Python's
  negative indexing and `IndexError`s on bad actions are therefore not
  modelled.
- Exceptions raised by the progress callback are not modelled. The callback
  is represented by the list of argument triples it receives.
- Training.Train: besides the per-episode rewards, the model returns the
  per-episode win flags, final boards and histories. AI.py keeps the flags
  in a local list and does not keep the boards or the histories.
- Policy.ChooseAction: the chance of exploring (the coin falling below ε) is not
  stated. The contract is stated for each branch given the coin.
- Tactics.ExpertMove: the uniform distribution over threat cells is stated only as
  membership in the threat set.

=== FILE: board.dfy ===
/** The board model of the tic-tac-toe trainer: nine cells, the eight winning
    lines, the static cell-to-lines index, legal moves and terminal tests. */
module BoardModel {

  /** A cell holds nothing or one of the two marks. 'X' is the expert side
      (the human in live play), 'O' is the learning agent. */
  datatype Cell = Empty | X | O

  /** A cell index. */
  type Pos = i: int | 0 <= i < 9

  /** A board is the row-major sequence of its nine cells; it doubles as the
      lookup key ("state") of the Q-table. */
  type Board = b: seq<Cell> | |b| == 9
    witness [Empty, Empty, Empty, Empty, Empty, Empty, Empty, Empty, Empty]

  /** A winning line: three cell indices. */
  datatype Line = Line(a: Pos, b: Pos, c: Pos) {
    predicate Contains(p: Pos) {
      p == a || p == b || p == c
    }

    predicate Distinct() {
      a != b && b != c && a != c
    }
  }

  /** The mark the other side plays: anything that is not 'X' has 'X' as
      its opponent. */
  function Opponent(p: Cell): (r: Cell)
    ensures r != Empty && r != p
  {
    if p == X then O else X
  }

  const EmptyBoard: Board := [Empty, Empty, Empty, Empty, Empty, Empty, Empty, Empty, Empty]

  /** Three rows, three columns and the two diagonals, in the order of `win_patterns` in AI.py. */
  const WinPatterns: seq<Line> :=
    [Line(0, 1, 2), Line(3, 4, 5), Line(6, 7, 8),
     Line(0, 3, 6), Line(1, 4, 7), Line(2, 5, 8),
     Line(0, 4, 8), Line(2, 4, 6)]

  /** For every cell, the lines through it, as `position_threats` in AI.py tabulates them. */
  const PositionThreats: seq<seq<Line>> :=
    [ [Line(0, 1, 2), Line(0, 3, 6), Line(0, 4, 8)],
      [Line(0, 1, 2), Line(1, 4, 7)],
      [Line(0, 1, 2), Line(2, 5, 8), Line(2, 4, 6)],
      [Line(3, 4, 5), Line(0, 3, 6)],
      [Line(3, 4, 5), Line(1, 4, 7), Line(0, 4, 8), Line(2, 4, 6)],
      [Line(3, 4, 5), Line(2, 5, 8)],
      [Line(6, 7, 8), Line(0, 3, 6), Line(2, 4, 6)],
      [Line(6, 7, 8), Line(1, 4, 7)],
      [Line(6, 7, 8), Line(2, 5, 8), Line(0, 4, 8)] ]

  /** The hand-written index lists, for every cell, exactly the winning lines
      through that cell, and every winning line has three distinct cells. */
  lemma PositionThreatsIndexesWinPatterns()
    ensures |PositionThreats| == 9
    ensures forall k :: 0 <= k < |WinPatterns| ==> WinPatterns[k].Distinct()
    ensures forall p: Pos, l :: l in PositionThreats[p] <==> l in WinPatterns && l.Contains(p)
  {
  }

  /** `reset` puts the board back to nine empty cells. */
  lemma ResetBoard()
    ensures forall p: Pos :: EmptyBoard[p] == Empty
    ensures Count(EmptyBoard, Empty) == 9 && Count(EmptyBoard, X) == 0 && Count(EmptyBoard, O) == 0
  {
    assert EmptyBoard == [Empty, Empty, Empty, Empty, Empty, Empty, Empty, Empty, Empty];
  }

  /** How many cells hold `c`. */
  function Count(b: Board, c: Cell): nat
  {
    multiset(b)[c]
  }

  predicate Increasing(s: seq<Pos>)
  {
    forall i, j :: 0 <= i < j < |s| ==> s[i] < s[j]
  }

  /** The empty cells at index `k` or later, in increasing order. */
  function EmptyCellsFrom(b: Board, k: nat): (r: seq<Pos>)
    requires k <= 9
    ensures forall c: Pos :: c in r <==> k <= c && b[c] == Empty
    ensures Increasing(r)
    ensures forall i :: 0 <= i < |r| ==> k <= r[i]
    decreases 9 - k
  {
    if k == 9 then []
    else if b[k] == Empty then [k as Pos] + EmptyCellsFrom(b, k + 1)
    else EmptyCellsFrom(b, k + 1)
  }

  /** `available_actions`: the indices of the empty cells. */
  function AvailableActions(b: Board): (r: seq<Pos>)
    ensures forall c: Pos :: c in r <==> b[c] == Empty
    ensures Increasing(r)
  {
    EmptyCellsFrom(b, 0)
  }

  /** The first element of the available actions is the lowest empty cell. */
  lemma FirstAvailableIsLowest(b: Board)
    requires AvailableActions(b) != []
    ensures b[AvailableActions(b)[0]] == Empty
    ensures forall c: Pos :: c < AvailableActions(b)[0] ==> b[c] != Empty
  {
    var r := AvailableActions(b);
    assert forall i :: 0 <= i < |r| ==> r[0] <= r[i];
  }

  predicate LineOf(b: Board, l: Line, p: Cell)
  {
    b[l.a] == p && b[l.b] == p && b[l.c] == p
  }

  /** The reference meaning of a win: some winning line is filled with `p`. */
  ghost predicate HasLine(b: Board, p: Cell)
  {
    exists k :: 0 <= k < |WinPatterns| && LineOf(b, WinPatterns[k], p)
  }

  /** The scan over a list of lines that `check_win` performs. */
  function AnyLine(b: Board, lines: seq<Line>, p: Cell): (r: bool)
    ensures r <==> exists k :: 0 <= k < |lines| && LineOf(b, lines[k], p)
  {
    if lines == [] then false
    else if LineOf(b, lines[0], p) then true
    else
      var rest := AnyLine(b, lines[1..], p);
      assert forall k :: 1 <= k < |lines| ==> lines[k] == lines[1..][k - 1];
      rest
  }

  /** `check_win(player)`. */
  function CheckWin(b: Board, p: Cell): (r: bool)
    ensures r <==> HasLine(b, p)
  {
    AnyLine(b, WinPatterns, p)
  }

  /** `is_draw`: true as soon as no cell is empty, whether or not a line is
      complete. */
  function IsDraw(b: Board): (r: bool)
    ensures r <==> forall c: Pos :: b[c] != Empty
    ensures r <==> AvailableActions(b) == []
    ensures r <==> Count(b, Empty) == 0
  {
    var avail := AvailableActions(b);
    assert avail != [] ==> b[avail[0]] == Empty;
    assert Empty in b ==> exists c: Pos :: b[c] == Empty;
    Empty !in b
  }

  const FullWithLine: Board := [X, X, X, O, O, X, X, O, O]

  /** `is_draw` does not exclude a win: a full board with a completed line
      counts as a draw too. */
  lemma DrawDoesNotExcludeWin()
    ensures IsDraw(FullWithLine) && CheckWin(FullWithLine, X)
  {
    assert LineOf(FullWithLine, WinPatterns[0], X);
  }

  /** Placing mark `m` on an empty cell adds one `m`, removes one empty cell
      and leaves the count of the other mark alone. */
  lemma PlaceCounts(b: Board, i: Pos, m: Cell)
    requires b[i] == Empty && m != Empty
    ensures Count(b[i := m], m) == Count(b, m) + 1
    ensures Count(b[i := m], Empty) == Count(b, Empty) - 1
    ensures forall c :: c != m && c != Empty ==> Count(b[i := m], c) == Count(b, c)
  {
    assert multiset(b[i := m]) == multiset(b) - multiset{Empty} + multiset{m};
  }

  /** Placing one mark on an empty cell never completes a line of another
      mark. */
  lemma PlaceKeepsOtherLines(b: Board, i: Pos, m: Cell, p: Cell)
    requires b[i] == Empty && p != Empty && m != p
    ensures HasLine(b[i := m], p) <==> HasLine(b, p)
  {
    var b' := b[i := m];
    if HasLine(b', p) {
      var k :| 0 <= k < |WinPatterns| && LineOf(b', WinPatterns[k], p);
      assert LineOf(b, WinPatterns[k], p);
    }
    if HasLine(b, p) {
      var k :| 0 <= k < |WinPatterns| && LineOf(b, WinPatterns[k], p);
      assert LineOf(b', WinPatterns[k], p);
    }
  }
}

=== FILE: options.dfy ===
/** The optional value the trainer returns where AI.py either
    returns `None` or raises because no move is left to choose. */
module Options {

  datatype Option<+T> = None | Some(value: T)

}

=== FILE: policy.dfy ===
/** The agent's policy: the threat-blocking override, exploration through
    the expert move, and greedy exploitation of the Q-table with a random
    tie-breaking jitter. The agent plays 'O' against 'X'. */
module Policy {
  import opened Options
  import opened BoardModel
  import opened Tactics
  import opened QLearning

  /** The mutable fields of the trainer that the core reads and writes. */
  datatype Trainer = Trainer(q: QTable, alpha: real, epsilon: real)

  const InitialAlpha: real := 0.5
  const MinAlpha: real := 0.1
  const InitialEpsilon: real := 0.3
  const EpsilonDecay: real := 0.99995
  const MinEpsilon: real := 0.05

  /** A freshly constructed trainer: empty table, alpha 0.5, epsilon 0.3. */
  const NewTrainer: Trainer := Trainer(map[], InitialAlpha, InitialEpsilon)

  /** The ranges the learning and exploration rates keep, and the clamp
      every stored estimate keeps. */
  ghost predicate InRange(t: Trainer)
  {
    && MinAlpha <= t.alpha <= InitialAlpha
    && MinEpsilon <= t.epsilon <= InitialEpsilon
    && Bounded(t.q)
  }

  lemma NewTrainerInRange()
    ensures InRange(NewTrainer)
  {
  }

  /** `max(min_epsilon, epsilon * epsilon_decay)`. */
  function DecayEpsilon(eps: real): (r: real)
    ensures r >= MinEpsilon && r >= eps * EpsilonDecay
    ensures r == MinEpsilon || r == eps * EpsilonDecay
    ensures MinEpsilon <= eps <= InitialEpsilon ==> MinEpsilon <= r <= eps
  {
    var d := eps * EpsilonDecay;
    if MinEpsilon >= d then MinEpsilon else d
  }

  /** The cells among `avail` whose jittered estimate reaches the maximum. */
  function BestActions(row: Row, jitter: seq<real>, avail: seq<Pos>): (best: set<Pos>)
    requires |jitter| == 9 && avail != []
    ensures best != {}
    ensures forall a :: a in best ==> a in avail
    ensures forall a, c :: a in best && c in avail ==> row[c] + jitter[c] <= row[a] + jitter[a]
    ensures forall a :: a in avail && (forall c :: c in avail ==> row[c] + jitter[c] <= row[a] + jitter[a]) ==> a in best
  {
    var values := seq(|avail|, i requires 0 <= i < |avail| => row[avail[i]] + jitter[avail[i]]);
    var m := MaxOf(values);
    var i :| 0 <= i < |values| && values[i] == m;
    assert forall c :: c in avail ==> exists j :: 0 <= j < |avail| && avail[j] == c && values[j] <= m;
    var best := set a | a in avail && row[a] + jitter[a] == m;
    assert avail[i] in best;
    best
  }

  /** `choose_action(state)` for the agent on board `b` (AI.py reads the
      board from the instance and uses `state` only as the table key; the two
      are the same board). `coin` is the `random.random()` draw and
      `jitter[c]` the normal draw added to the estimate of cell `c`; the
      uniform choices among threats and among tied best cells are modelled
      as arbitrary choices. `None` stands for the error raised on a full
      board. */
  method ChooseAction(t: Trainer, b: Board, coin: real, jitter: seq<real>) returns (r: Option<Pos>, t': Trainer)
    requires |jitter| == 9
    ensures r.None? <==> IsDraw(b)
    ensures r.Some? ==> b[r.value] == Empty
    ensures Threats(b, X) != {} ==> r.Some? && r.value in Threats(b, X) && t' == t
    ensures Threats(b, X) == {} ==> t'.alpha == t.alpha && t'.epsilon == DecayEpsilon(t.epsilon)
    ensures Threats(b, X) == {} && coin < t'.epsilon ==> ExpertMay(b, O, r) && t'.q == t.q
    ensures Threats(b, X) == {} && coin >= t'.epsilon ==> t'.q == Touch(t.q, b)
    ensures Threats(b, X) == {} && coin >= t'.epsilon && r.Some? ==>
              forall c: Pos :: b[c] == Empty ==>
                Lookup(t.q, b)[c] + jitter[c] <= Lookup(t.q, b)[r.value] + jitter[r.value]
    ensures InRange(t) ==> InRange(t')
  {
    var threats := FindImmediateThreats(b, X);
    if threats != {} {
      var c :| c in threats;
      return Some(c), t;
    }
    var eps := DecayEpsilon(t.epsilon);
    if coin < eps {
      r := ExpertMove(b, O);
      t' := t.(epsilon := eps);
    } else {
      var row := Lookup(t.q, b);
      var q' := Touch(t.q, b);
      if Bounded(t.q) {
        TouchKeepsBounded(t.q, b);
      }
      t' := Trainer(q', t.alpha, eps);
      var avail := AvailableActions(b);
      if avail == [] {
        r := None;
      } else {
        var best := BestActions(row, jitter, avail);
        var a :| a in best;
        r := Some(a);
      }
    }
  }
}

=== FILE: qlearning.dfy ===
/** The Q-table and its clamped temporal-difference update. */
module QLearning {
  import opened BoardModel

  /** One value estimate per cell index. */
  type Row = r: seq<real> | |r| == 9
    witness [0.0, 0.0, 0.0, 0.0, 0.0, 0.0, 0.0, 0.0, 0.0]

  /** States are whole boards, with no folding of symmetric positions. */
  type QTable = map<Board, Row>

  const ZeroRow: Row := [0.0, 0.0, 0.0, 0.0, 0.0, 0.0, 0.0, 0.0, 0.0]

  const Gamma: real := 0.95
  const QMin: real := -50.0
  const QMax: real := 50.0

  /** `np.clip(x, lo, hi)`. */
  function Clip(x: real, lo: real, hi: real): (r: real)
    requires lo <= hi
    ensures lo <= r <= hi
    ensures lo <= x <= hi ==> r == x
    ensures x < lo ==> r == lo
    ensures x > hi ==> r == hi
  {
    if x < lo then lo else if x > hi then hi else x
  }

  /** Python's `max` over a non-empty list. */
  function MaxOf(s: seq<real>): (m: real)
    requires |s| > 0
    ensures m in s
    ensures forall i :: 0 <= i < |s| ==> s[i] <= m
  {
    if |s| == 1 then s[0]
    else
      var rest := MaxOf(s[1..]);
      assert forall i :: 1 <= i < |s| ==> s[i] == s[1..][i - 1];
      if s[0] >= rest then s[0] else rest
  }

  /** What `q_table[state]` reads: the stored row, or zeros for an unseen
      state. */
  function Lookup(q: QTable, s: Board): (r: Row)
    ensures s in q ==> r == q[s]
    ensures s !in q ==> forall a: Pos :: r[a] == 0.0
    ensures Bounded(q) ==> forall a: Pos :: QMin <= r[a] <= QMax
  {
    if s in q then q[s] else ZeroRow
  }

  /** The side effect of that read on the default dictionary: an unseen
      state gets a zero row. */
  function Touch(q: QTable, s: Board): (q': QTable)
    ensures q'.Keys == q.Keys + {s}
    ensures forall t :: t in q ==> q'[t] == q[t]
    ensures forall a: Pos :: q'[s][a] == Lookup(q, s)[a]
    ensures s !in q ==> forall a: Pos :: q'[s][a] == 0.0
  {
    if s in q then q else q[s := ZeroRow]
  }

  /** Every stored estimate lies in [QMin, QMax]. */
  ghost predicate Bounded(q: QTable)
  {
    forall s, a: Pos :: s in q ==> QMin <= q[s][a] <= QMax
  }

  lemma TouchKeepsBounded(q: QTable, s: Board)
    requires Bounded(q)
    ensures Bounded(Touch(q, s))
  {
  }

  /** The bootstrap term: the best estimate of the next state if that state
      has a row, and 0 otherwise. */
  function MaxNext(q: QTable, next: Board): (m: real)
    ensures next in q ==> forall a: Pos :: q[next][a] <= m
    ensures next in q ==> exists a: Pos :: q[next][a] == m
    ensures next !in q ==> m == 0.0
  {
    if next in q then
      var m := MaxOf(q[next]);
      assert exists i :: 0 <= i < 9 && q[next][i] == m;
      m
    else 0.0
  }

  /** The step of the update before clamping: move the current estimate a
      fraction `alpha` of the way toward `reward + Gamma * maxNext`. */
  function TDStep(cur: real, alpha: real, reward: real, maxNext: real): real
  {
    cur + alpha * (TDTarget(reward, maxNext) - cur)
  }

  /** The temporal-difference target. */
  function TDTarget(reward: real, maxNext: real): real
  {
    reward + Gamma * maxNext
  }

  /** `update_q_table(state, action, next_state, reward)`. The current value
      is read first, which creates the row of `state` if missing; only then
      is `next_state` looked up. The new estimate is clamped to [-50, 50]. */
  function UpdateQ(q: QTable, alpha: real, s: Board, a: Pos, next: Board, reward: real): (q': QTable)
    ensures q'.Keys == q.Keys + {s}
    ensures forall t :: t in q && t != s ==> q'[t] == q[t]
    ensures forall a': Pos :: a' != a ==> q'[s][a'] == Lookup(q, s)[a']
    ensures QMin <= q'[s][a] <= QMax
    ensures q'[s][a] == Clip(TDStep(Lookup(q, s)[a], alpha, reward, MaxNext(Touch(q, s), next)), QMin, QMax)
    ensures Bounded(q) ==> Bounded(q')
  {
    var q1 := Touch(q, s);
    var newQ := TDStep(q1[s][a], alpha, reward, MaxNext(q1, next));
    var row: Row := q1[s][a := Clip(newQ, QMin, QMax)];
    assert Bounded(q) ==> forall a': Pos :: QMin <= row[a'] <= QMax;
    q1[s := row]
  }

  /** With a learning rate in [0, 1] and a target inside the clamp, the
      update is an unclamped step that lands between the old estimate and
      the target. */
  lemma UpdateMovesTowardTarget(q: QTable, alpha: real, s: Board, a: Pos, next: Board, reward: real)
    requires 0.0 <= alpha <= 1.0
    requires QMin <= Lookup(q, s)[a] <= QMax
    requires QMin <= TDTarget(reward, MaxNext(Touch(q, s), next)) <= QMax
    ensures var cur := Lookup(q, s)[a];
            var target := TDTarget(reward, MaxNext(Touch(q, s), next));
            var v := UpdateQ(q, alpha, s, a, next, reward)[s][a];
            (cur <= v <= target) || (target <= v <= cur)
  {
    var cur := Lookup(q, s)[a];
    var maxNext := MaxNext(Touch(q, s), next);
    StepBetween(cur, alpha, reward, maxNext);
  }

  lemma MulNonneg(x: real, y: real)
    requires x >= 0.0 && y >= 0.0
    ensures x * y >= 0.0
  {
  }

  /** A step of fraction `alpha` in [0, 1] lands between its two ends. */
  lemma StepBetween(cur: real, alpha: real, reward: real, maxNext: real)
    requires 0.0 <= alpha <= 1.0
    ensures var v := TDStep(cur, alpha, reward, maxNext);
            var target := TDTarget(reward, maxNext);
            (cur <= v <= target) || (target <= v <= cur)
  {
    var target := TDTarget(reward, maxNext);
    if cur <= target {
      MulNonneg(alpha, target - cur);
      MulNonneg(1.0 - alpha, target - cur);
      assert cur + alpha * (target - cur) + (1.0 - alpha) * (target - cur) == target;
    } else {
      MulNonneg(alpha, cur - target);
      MulNonneg(1.0 - alpha, cur - target);
      assert cur - alpha * (cur - target) - (1.0 - alpha) * (cur - target) == target;
    }
  }

  /** An estimate that already equals its target is a fixed point. */
  lemma UpdateAtTargetIsFixed(q: QTable, alpha: real, s: Board, a: Pos, next: Board, reward: real)
    requires QMin <= Lookup(q, s)[a] <= QMax
    requires Lookup(q, s)[a] == TDTarget(reward, MaxNext(Touch(q, s), next))
    ensures UpdateQ(q, alpha, s, a, next, reward)[s][a] == Lookup(q, s)[a]
  {
    var cur := Lookup(q, s)[a];
    assert TDStep(cur, alpha, reward, MaxNext(Touch(q, s), next)) == cur;
  }
}

=== FILE: rewards.dfy ===
/** The reward shaper: scores the board left by `player`'s move. */
module Rewards {
  import opened Options
  import opened BoardModel
  import opened Tactics

  const WinReward: int := 50
  const LossReward: int := -50
  const BlockReward: int := 20
  const DrawReward: int := 1
  const NeutralReward: int := 0

  /** The lowest-index cell holding `p` at index `k` or later. */
  function FirstIndexFrom(b: Board, p: Cell, k: nat): (r: Option<Pos>)
    requires k <= 9
    ensures r.Some? ==> k <= r.value && b[r.value] == p
    ensures r.Some? ==> forall j: Pos :: k <= j < r.value ==> b[j] != p
    ensures r.None? <==> forall j: Pos :: k <= j ==> b[j] != p
    decreases 9 - k
  {
    if k == 9 then None
    else if b[k] == p then Some(k as Pos)
    else FirstIndexFrom(b, p, k + 1)
  }

  /** The cell `get_reward` takes as the last move: the first cell, in index
      order, that holds `player`. */
  function LastAction(b: Board, p: Cell): (r: Option<Pos>)
    ensures r.Some? ==> b[r.value] == p && forall j: Pos :: j < r.value ==> b[j] != p
    ensures r.None? <==> forall j: Pos :: b[j] != p
  {
    FirstIndexFrom(b, p, 0)
  }

  /** `la` is the lowest cell holding `p`. */
  ghost predicate LowestHeld(b: Board, p: Cell, la: Pos)
  {
    b[la] == p && forall j: Pos :: j < la ==> b[j] != p
  }

  /** The reference condition for the block bonus: the lowest cell held by
      `player` lies on a winning line whose two other cells the opponent
      holds. */
  ghost predicate BlockBonus(b: Board, player: Cell)
  {
    exists la: Pos :: 0 <= la < 9 && LowestHeld(b, player, la) &&
      exists k :: 0 <= k < |WinPatterns| && WinPatterns[k].Contains(la) &&
                  OthersHeld(b, WinPatterns[k], la, Opponent(player))
  }

  /** The `was_threat` test: vacate `la` on a copy and look, through the
      static index, for a line through `la` held by `opp` elsewhere. Vacating
      `la` does not matter, since only the other cells are tested. */
  function WasThreat(b: Board, la: Pos, opp: Cell): (r: bool)
    ensures r <==>
              exists k :: 0 <= k < |WinPatterns| && WinPatterns[k].Contains(la) && OthersHeld(b, WinPatterns[k], la, opp)
  {
    var temp := b[la := Empty];
    IndexedThreatIsThreat(temp, opp, la);
    assert forall l: Line :: OthersHeld(temp, l, la, opp) <==> OthersHeld(b, l, la, opp);
    AnyOthersHeld(temp, PositionThreats[la], la, opp)
  }

  /** `get_reward(player)`: 50 for a line of `player`, else -50 for a line of
      the opponent, else 20 when the lowest `player` cell blocked a line,
      else 1 on a full board, else 0. The board is left unchanged. */
  function GetReward(b: Board, player: Cell): (r: int)
    ensures r in {WinReward, LossReward, BlockReward, DrawReward, NeutralReward}
    ensures r == WinReward <==> HasLine(b, player)
    ensures r == LossReward <==> !HasLine(b, player) && HasLine(b, Opponent(player))
    ensures r == BlockReward <==>
              !HasLine(b, player) && !HasLine(b, Opponent(player)) && BlockBonus(b, player)
    ensures r == DrawReward <==>
              !HasLine(b, player) && !HasLine(b, Opponent(player)) && !BlockBonus(b, player) && IsDraw(b)
    ensures r == NeutralReward <==>
              !HasLine(b, player) && !HasLine(b, Opponent(player)) && !BlockBonus(b, player) && !IsDraw(b)
  {
    var opp := Opponent(player);
    if CheckWin(b, player) then WinReward
    else if CheckWin(b, opp) then LossReward
    else
      var last := LastAction(b, player);
      if last.Some? && WasThreat(b, last.value, opp) then
        assert LowestHeld(b, player, last.value);
        BlockReward
      else
        assert !BlockBonus(b, player);
        if IsDraw(b) then DrawReward else NeutralReward
  }
}

=== FILE: tactics.dfy ===
/** The hand-coded tactics: open-threat detection (two ways), the expert
    move used as the training opponent and as the exploration move, and the
    double-threat search built on counting still-open lines. */
module Tactics {
  import opened Options
  import opened BoardModel

  /** Every cell of line `l` other than `c` holds `p`. */
  predicate OthersHeld(b: Board, l: Line, c: Pos, p: Cell)
  {
    (l.a == c || b[l.a] == p) && (l.b == c || b[l.b] == p) && (l.c == c || b[l.c] == p)
  }

  /** The reference meaning of a threat: `c` is empty and some winning line
      through `c` has its two other cells held by `opp`. */
  ghost predicate IsThreatCell(b: Board, opp: Cell, c: Pos)
  {
    && b[c] == Empty
    && exists k :: 0 <= k < |WinPatterns| && WinPatterns[k].Contains(c) && OthersHeld(b, WinPatterns[k], c, opp)
  }

  ghost function Threats(b: Board, opp: Cell): set<Pos>
  {
    set c: Pos | 0 <= c < 9 && IsThreatCell(b, opp, c)
  }

  /** The inner loop of `find_immediate_threats`: does some line of `lines`
      have all its cells other than `c` held by `p`? */
  function AnyOthersHeld(b: Board, lines: seq<Line>, c: Pos, p: Cell): (r: bool)
    ensures r <==> exists l :: l in lines && OthersHeld(b, l, c, p)
  {
    if lines == [] then false
    else OthersHeld(b, lines[0], c, p) || AnyOthersHeld(b, lines[1..], c, p)
  }

  /** Through the static index, a cell is a threat exactly when the reference
      definition over all winning lines says so. */
  lemma IndexedThreatIsThreat(b: Board, opp: Cell, c: Pos)
    ensures b[c] == Empty && AnyOthersHeld(b, PositionThreats[c], c, opp) <==> IsThreatCell(b, opp, c)
  {
    PositionThreatsIndexesWinPatterns();
    if IsThreatCell(b, opp, c) {
      var k :| 0 <= k < |WinPatterns| && WinPatterns[k].Contains(c) && OthersHeld(b, WinPatterns[k], c, opp);
      assert WinPatterns[k] in PositionThreats[c];
    }
    if b[c] == Empty && AnyOthersHeld(b, PositionThreats[c], c, opp) {
      var l :| l in PositionThreats[c] && OthersHeld(b, l, c, opp);
      assert l in WinPatterns;
      var k :| 0 <= k < |WinPatterns| && WinPatterns[k] == l;
    }
  }

  /** The outer loop of `find_immediate_threats` over the candidate cells. */
  function ThreatScan(b: Board, cells: seq<Pos>, opp: Cell): (r: seq<Pos>)
    ensures forall c :: c in r <==> c in cells && AnyOthersHeld(b, PositionThreats[c], c, opp)
    ensures Increasing(cells) ==> Increasing(r)
    ensures Increasing(cells) && cells != [] ==> forall i :: 0 <= i < |r| ==> cells[0] <= r[i]
  {
    if cells == [] then []
    else
      var rest := ThreatScan(b, cells[1..], opp);
      if AnyOthersHeld(b, PositionThreats[cells[0]], cells[0], opp) then [cells[0]] + rest else rest
  }

  /** The list `find_immediate_threats` builds before removing duplicates:
      increasing, hence duplicate-free, and made of empty cells only. */
  function ImmediateThreatList(b: Board, opp: Cell): (r: seq<Pos>)
    ensures Increasing(r)
    ensures forall c :: c in r ==> c in AvailableActions(b)
    ensures forall c: Pos :: c in r <==> IsThreatCell(b, opp, c)
  {
    var r := ThreatScan(b, AvailableActions(b), opp);
    forall c: Pos
      ensures c in r <==> IsThreatCell(b, opp, c)
    {
      IndexedThreatIsThreat(b, opp, c);
    }
    r
  }

  /** `find_immediate_threats(opp)`; the order of its result is whatever the
      set conversion yields, so it is modelled as the set. */
  function FindImmediateThreats(b: Board, opp: Cell): (r: set<Pos>)
    ensures r == Threats(b, opp)
    ensures forall c :: c in r ==> b[c] == Empty
  {
    set c | c in ImmediateThreatList(b, opp)
  }

  /** The three checks `expert_move` makes on each line it scans. On a line
      with three distinct cells they find exactly the empty cell whose two
      partners are held by `opp`. */
  function LineThreats(b: Board, l: Line, opp: Cell): (r: seq<Pos>)
    ensures l.Distinct() ==>
              forall c: Pos :: c in r <==> b[c] == Empty && l.Contains(c) && OthersHeld(b, l, c, opp)
  {
    (if b[l.a] == opp && b[l.b] == opp && b[l.c] == Empty then [l.c] else []) +
    (if b[l.a] == opp && b[l.c] == opp && b[l.b] == Empty then [l.b] else []) +
    (if b[l.b] == opp && b[l.c] == opp && b[l.a] == Empty then [l.a] else [])
  }

  /** The direct scan of `expert_move` over a list of lines. */
  function PatternScan(b: Board, lines: seq<Line>, opp: Cell): (r: seq<Pos>)
    requires forall k :: 0 <= k < |lines| ==> lines[k].Distinct()
    ensures forall c: Pos :: c in r <==>
              b[c] == Empty && exists k :: 0 <= k < |lines| && lines[k].Contains(c) && OthersHeld(b, lines[k], c, opp)
  {
    if lines == [] then []
    else
      var rest := PatternScan(b, lines[1..], opp);
      assert forall k :: 1 <= k < |lines| ==> lines[k] == lines[1..][k - 1];
      LineThreats(b, lines[0], opp) + rest
  }

  /** The threats `expert_move` collects by scanning every winning line. */
  function ExpertThreats(b: Board, opp: Cell): (r: seq<Pos>)
    ensures forall c: Pos :: c in r <==> IsThreatCell(b, opp, c)
  {
    PositionThreatsIndexesWinPatterns();
    PatternScan(b, WinPatterns, opp)
  }

  /** The indexed detector and the direct line scan find the same cells. */
  lemma ThreatDetectorsAgree(b: Board, opp: Cell)
    ensures (set c | c in ExpertThreats(b, opp)) == FindImmediateThreats(b, opp)
  {
  }

  /** The strategic order: centre, corners, then edges. */
  const PriorityOrder: seq<Pos> := [4, 0, 2, 6, 8, 1, 3, 5, 7]

  /** The priority order lists every cell exactly once. */
  lemma PriorityOrderIsPermutation()
    ensures |PriorityOrder| == 9
    ensures forall c: Pos :: c in PriorityOrder
    ensures forall i, j :: 0 <= i < j < |PriorityOrder| ==> PriorityOrder[i] != PriorityOrder[j]
  {
  }

  /** The first cell of `order` that is empty, if any. */
  function FirstEmptyIn(b: Board, order: seq<Pos>): (r: Option<Pos>)
    ensures r.None? <==> forall i :: 0 <= i < |order| ==> b[order[i]] != Empty
    ensures r.Some? ==> b[r.value] == Empty && r.value in order
    ensures r.Some? ==> exists i :: 0 <= i < |order| && order[i] == r.value &&
                                  forall j :: 0 <= j < i ==> b[order[j]] != Empty
  {
    if order == [] then None
    else if b[order[0]] == Empty then Some(order[0])
    else
      var rest := FirstEmptyIn(b, order[1..]);
      assert forall i :: 1 <= i < |order| ==> order[i] == order[1..][i - 1];
      rest
  }

  /** Since the priority order covers every cell, scanning it finds nothing
      exactly when the board is full: the random fallback after it is only
      reached with no cell left. */
  lemma PriorityPickFailsOnlyWhenFull(b: Board)
    ensures FirstEmptyIn(b, PriorityOrder).None? <==> IsDraw(b)
  {
    PriorityOrderIsPermutation();
    if FirstEmptyIn(b, PriorityOrder).None? {
      assert b[PriorityOrder[0]] != Empty && b[PriorityOrder[1]] != Empty && b[PriorityOrder[2]] != Empty;
      assert b[PriorityOrder[3]] != Empty && b[PriorityOrder[4]] != Empty && b[PriorityOrder[5]] != Empty;
      assert b[PriorityOrder[6]] != Empty && b[PriorityOrder[7]] != Empty && b[PriorityOrder[8]] != Empty;
    }
  }

  /** Steps 2 to 4 of `expert_move`, taken when no threat is found. The
      "win" step places `player` on a copy but tests the real board, so it
      fires only when `player` already has a line, and then returns the
      lowest empty cell. Otherwise the first empty cell in priority order
      is returned. The final random pick over the available cells is only
      reached on a full board, where it fails: the model returns `None`. */
  function ExpertFallback(b: Board, player: Cell): (r: Option<Pos>)
    ensures r.None? <==> IsDraw(b)
    ensures r.Some? ==> b[r.value] == Empty
    ensures HasLine(b, player) && r.Some? ==> forall c: Pos :: c < r.value ==> b[c] != Empty
    ensures !HasLine(b, player) ==> r == FirstEmptyIn(b, PriorityOrder)
  {
    var avail := AvailableActions(b);
    if avail != [] && CheckWin(b, player) then
      FirstAvailableIsLowest(b);
      Some(avail[0])
    else
      PriorityPickFailsOnlyWhenFull(b);
      FirstEmptyIn(b, PriorityOrder)
  }

  /** What `expert_move(player)` may return: a uniformly chosen threat cell
      of the opponent when there is one, otherwise the fallback. */
  ghost predicate ExpertMay(b: Board, player: Cell, r: Option<Pos>)
  {
    if Threats(b, Opponent(player)) != {} then r.Some? && r.value in Threats(b, Opponent(player))
    else r == ExpertFallback(b, player)
  }

  /** `expert_move(player)`. The uniform random choice among the threats is
      modelled as an arbitrary choice. `None` stands for the error raised
      when the board is full. */
  method ExpertMove(b: Board, player: Cell) returns (r: Option<Pos>)
    ensures ExpertMay(b, player, r)
    ensures r.None? <==> IsDraw(b)
    ensures r.Some? ==> b[r.value] == Empty
  {
    var threats := ExpertThreats(b, Opponent(player));
    if threats != [] {
      assert threats[0] in threats;
      var t :| t in threats;
      assert t in Threats(b, Opponent(player));
      r := Some(t);
    } else {
      assert Threats(b, Opponent(player)) == {};
      r := ExpertFallback(b, player);
    }
  }

  /** 'O' on cells 3 and 4, all else empty. */
  const TwoInMiddleRow: Board := [Empty, Empty, Empty, O, O, Empty, Empty, Empty, Empty]

  /** As written, the expert does not take a winning cell: with 'O' on 3 and 4
      and no 'X' threat, `expert_move('O')` returns 0 although 5 would win. */
  lemma ExpertMissesWinningCell()
    ensures CheckWin(TwoInMiddleRow[5 := O], O)
    ensures forall r :: ExpertMay(TwoInMiddleRow, O, r) <==> r == Some(0)
  {
    var b := TwoInMiddleRow;
    assert LineOf(b[5 := O], WinPatterns[1], O);
    assert Threats(b, X) == {} by {
      forall c: Pos | 0 <= c < 9 ensures !IsThreatCell(b, X, c) {
      }
    }
    assert !HasLine(b, O);
    assert FirstEmptyIn(b, PriorityOrder) == Some(0);
  }

  /** Every cell of line `l` holds `p` or is empty. */
  predicate OpenFor(b: Board, l: Line, p: Cell)
  {
    (b[l.a] == p || b[l.a] == Empty) && (b[l.b] == p || b[l.b] == Empty) && (b[l.c] == p || b[l.c] == Empty)
  }

  /** The positions in `lines` of the lines still open for `p`. */
  ghost function OpenIndices(b: Board, lines: seq<Line>, p: Cell): set<nat>
  {
    set k: nat | k < |lines| && OpenFor(b, lines[k], p)
  }

  /** Every member of `s` moved up by one. */
  ghost function Shift(s: set<nat>): set<nat>
  {
    set k | k in s :: k + 1
  }

  lemma {:induction false} ShiftKeepsSize(s: set<nat>)
    ensures |Shift(s)| == |s|
  {
    if s != {} {
      var k :| k in s;
      ShiftKeepsSize(s - {k});
      forall j | j in Shift(s)
        ensures j in Shift(s - {k}) + {k + 1}
      {
        var i :| i in s && j == i + 1;
        if i != k {
          assert i in s - {k};
        }
      }
      assert k + 1 in Shift(s);
      assert Shift(s) == Shift(s - {k}) + {k + 1};
      assert k + 1 !in Shift(s - {k});
    }
  }

  /** Apart from 0, the open positions of a non-empty list are those of its
      tail, moved up by one. */
  lemma OpenIndicesTail(b: Board, lines: seq<Line>, p: Cell)
    requires lines != []
    ensures OpenIndices(b, lines, p) - {0} == Shift(OpenIndices(b, lines[1..], p))
  {
    var all := OpenIndices(b, lines, p);
    var tail := OpenIndices(b, lines[1..], p);
    forall k | k in all - {0}
      ensures k in Shift(tail)
    {
      assert lines[k] == lines[1..][k - 1];
      assert k - 1 in tail;
    }
    forall k | k in Shift(tail)
      ensures k in all - {0}
    {
      var i :| i in tail && k == i + 1;
      assert lines[k] == lines[1..][i];
    }
  }

  /** The open positions of a non-empty list are those of its tail, plus 0
      when its head is open. */
  lemma OpenIndicesSplit(b: Board, lines: seq<Line>, p: Cell)
    requires lines != []
    ensures |OpenIndices(b, lines, p)| ==
              |OpenIndices(b, lines[1..], p)| + (if OpenFor(b, lines[0], p) then 1 else 0)
  {
    var all := OpenIndices(b, lines, p);
    OpenIndicesTail(b, lines, p);
    ShiftKeepsSize(OpenIndices(b, lines[1..], p));
    if OpenFor(b, lines[0], p) {
      assert all == (all - {0}) + {0};
    } else {
      assert all == all - {0};
    }
  }

  /** How many lines of `lines` are still open for `p`. */
  function CountOpen(b: Board, lines: seq<Line>, p: Cell): (r: nat)
    ensures r == |OpenIndices(b, lines, p)|
    ensures r <= |lines|
    ensures r == |lines| <==> forall k :: 0 <= k < |lines| ==> OpenFor(b, lines[k], p)
    ensures r == 0 <==> forall k :: 0 <= k < |lines| ==> !OpenFor(b, lines[k], p)
  {
    if lines == [] then 0
    else
      var rest := CountOpen(b, lines[1..], p);
      assert forall k :: 1 <= k < |lines| ==> lines[k] == lines[1..][k - 1];
      OpenIndicesSplit(b, lines, p);
      (if OpenFor(b, lines[0], p) then 1 else 0) + rest
  }

  /** `count_potential_wins(board, player)`: the winning lines `player` could
      still complete. */
  function CountPotentialWins(b: Board, p: Cell): (r: nat)
    ensures r == |OpenIndices(b, WinPatterns, p)|
    ensures r <= 8
  {
    CountOpen(b, WinPatterns, p)
  }

  /** The count is 8 exactly when every winning line is open for `p`, and 0
      exactly when none is. */
  lemma CountPotentialWinsExtremes(b: Board, p: Cell)
    ensures CountPotentialWins(b, p) == 8 <==> forall k :: 0 <= k < |WinPatterns| ==> OpenFor(b, WinPatterns[k], p)
    ensures CountPotentialWins(b, p) == 0 <==> forall k :: 0 <= k < |WinPatterns| ==> !OpenFor(b, WinPatterns[k], p)
  {
  }

  /** On an empty board every line is open, for either side. */
  lemma EmptyBoardHasEightOpenLines(p: Cell)
    ensures CountPotentialWins(EmptyBoard, p) == 8
  {
    CountPotentialWinsExtremes(EmptyBoard, p);
  }

  /** Placing one's own mark on an empty cell keeps every open line open. */
  lemma {:induction false} OwnMarkKeepsLinesOpen(b: Board, lines: seq<Line>, i: Pos, p: Cell)
    requires b[i] == Empty
    ensures CountOpen(b[i := p], lines, p) >= CountOpen(b, lines, p)
  {
    if lines != [] {
      OwnMarkKeepsLinesOpen(b, lines[1..], i, p);
    }
  }

  /** Placing any other mark on an empty cell never opens a line. */
  lemma {:induction false} OtherMarkNeverOpensLines(b: Board, lines: seq<Line>, i: Pos, p: Cell, q: Cell)
    requires b[i] == Empty && q != p && q != Empty
    ensures CountOpen(b[i := q], lines, p) <= CountOpen(b, lines, p)
  {
    if lines != [] {
      OtherMarkNeverOpensLines(b, lines[1..], i, p, q);
    }
  }

  /** Placing `p` on `c` leaves at least two lines open for `p`. */
  predicate MakesDoubleThreat(b: Board, c: Pos, p: Cell)
  {
    CountPotentialWins(b[c := p], p) >= 2
  }

  /** The loop of `find_double_threat_move` over the candidate cells. */
  function FirstDoubleThreat(b: Board, cells: seq<Pos>, p: Cell): (r: Option<Pos>)
    ensures r.Some? ==> r.value in cells && MakesDoubleThreat(b, r.value, p)
    ensures r.None? ==> forall c :: c in cells ==> !MakesDoubleThreat(b, c, p)
  {
    if cells == [] then None
    else if MakesDoubleThreat(b, cells[0], p) then Some(cells[0])
    else
      assert forall c :: c in cells ==> c == cells[0] || c in cells[1..];
      FirstDoubleThreat(b, cells[1..], p)
  }

  /** Over increasing candidates, no cell below the one found qualifies. */
  lemma {:induction false} FirstDoubleThreatIsLowest(b: Board, cells: seq<Pos>, p: Cell)
    requires Increasing(cells)
    ensures var r := FirstDoubleThreat(b, cells, p);
            r.Some? ==> forall c :: c in cells && c < r.value ==> !MakesDoubleThreat(b, c, p)
  {
    if cells != [] && !MakesDoubleThreat(b, cells[0], p) {
      FirstDoubleThreatIsLowest(b, cells[1..], p);
      assert forall c :: c in cells ==> c == cells[0] || c in cells[1..];
    }
  }

  /** `find_double_threat_move(player)`: the lowest empty cell where placing
      `player` leaves at least two open lines, if any. The board itself is
      never changed: the placement is made on a copy. */
  function FindDoubleThreatMove(b: Board, p: Cell): (r: Option<Pos>)
    ensures r.Some? ==> b[r.value] == Empty && MakesDoubleThreat(b, r.value, p)
    ensures r.Some? ==> forall c: Pos :: c < r.value && b[c] == Empty ==> !MakesDoubleThreat(b, c, p)
    ensures r.None? ==> forall c: Pos :: b[c] == Empty ==> !MakesDoubleThreat(b, c, p)
  {
    var avail := AvailableActions(b);
    var r := FirstDoubleThreat(b, avail, p);
    FirstDoubleThreatIsLowest(b, avail, p);
    assert forall c: Pos :: b[c] == Empty <==> c in avail;
    r
  }
}

=== FILE: training.dfy ===
/** The self-play training loop: the agent 'O' moves first against the expert
    'X'; after every episode the learning rate may decay and progress may be
    reported. */
module Training {
  import opened Options
  import opened BoardModel
  import opened Tactics
  import opened Rewards
  import opened QLearning
  import opened Policy

  /** The extra reward credited to the agent's last move when the expert wins. */
  const LossPenalty: int := -15

  /** The range every episode's total reward stays in: at most four block
      bonuses plus a win, or nothing but the loss penalty. */
  const MinEpisodeReward: int := -15
  const MaxEpisodeReward: int := 130

  /** How many episodes the trailing statistics cover. */
  const WindowSize: nat := 1000

  /** `max(0.1, alpha * 0.999)`, applied every hundredth episode. */
  function DecayAlpha(a: real): (r: real)
    ensures r >= MinAlpha && r >= a * 0.999
    ensures r == MinAlpha || r == a * 0.999
    ensures MinAlpha <= a <= InitialAlpha ==> MinAlpha <= r <= a
  {
    var d := a * 0.999;
    if MinAlpha >= d then MinAlpha else d
  }

  /** The learning rate after `k` decays. */
  function AlphaAfter(a: real, k: nat): real
  {
    if k == 0 then a else DecayAlpha(AlphaAfter(a, k - 1))
  }

  /** Repeated decay never leaves [0.1, initial alpha] and never increases. */
  lemma {:induction false} AlphaAfterStaysInRange(a: real, k: nat)
    requires MinAlpha <= a <= InitialAlpha
    ensures MinAlpha <= AlphaAfter(a, k) <= a
  {
    if k > 0 {
      AlphaAfterStaysInRange(a, k - 1);
    }
  }

  /** How many of the episodes 0 .. n-1 satisfy `ep % 100 == 0`. */
  function AlphaDecays(n: nat): nat
  {
    (n + 99) / 100
  }

  /** The arguments of one progress-callback call. */
  datatype Progress = Progress(episode: nat, avgReward: real, winRate: real)

  /** `s[-1000:]`: the last (at most) 1000 entries. */
  function Window<T>(s: seq<T>): (w: seq<T>)
    ensures |w| == if |s| <= WindowSize then |s| else WindowSize
    ensures w == s[|s| - |w|..]
  {
    if |s| <= WindowSize then s else s[|s| - WindowSize..]
  }

  function Sum(s: seq<int>): int
  {
    if s == [] then 0 else Sum(s[..|s| - 1]) + s[|s| - 1]
  }

  /** The number of won episodes among the flags. */
  function Wins(s: seq<bool>): (n: nat)
    ensures n <= |s|
    ensures n == multiset(s)[true]
  {
    if s == [] then 0
    else
      assert s == s[..|s| - 1] + [s[|s| - 1]];
      Wins(s[..|s| - 1]) + (if s[|s| - 1] then 1 else 0)
  }

  /** `np.mean` of a non-empty list of integers. */
  function Mean(s: seq<int>): (m: real)
    requires s != []
    ensures m * |s| as real == Sum(s) as real
  {
    Sum(s) as real / |s| as real
  }

  /** What the callback receives after the episodes recorded so far: the
      episode count, the mean reward over the window, and the number of wins
      in the window divided by 10 (a percentage only of a full window). */
  function ProgressAt(rewards: seq<int>, wins: seq<bool>): (r: Progress)
    requires |rewards| == |wins| > 0
    ensures r.episode == |rewards|
    ensures r.avgReward * |Window(rewards)| as real == Sum(Window(rewards)) as real
    ensures 10.0 * r.winRate == multiset(Window(wins))[true] as real
  {
    Progress(|rewards|, Mean(Window(rewards)), Wins(Window(wins)) as real / 10.0)
  }

  /** A sum of entries in [lo, hi] lies between |s|*lo and |s|*hi. */
  lemma {:induction false} SumBounds(s: seq<int>, lo: int, hi: int)
    requires forall i :: 0 <= i < |s| ==> lo <= s[i] <= hi
    ensures |s| * lo <= Sum(s) <= |s| * hi
  {
    if s != [] {
      SumBounds(s[..|s| - 1], lo, hi);
    }
  }

  lemma WindowEntries(s: seq<int>, lo: int, hi: int)
    requires forall i :: 0 <= i < |s| ==> lo <= s[i] <= hi
    ensures forall i :: 0 <= i < |Window(s)| ==> lo <= Window(s)[i] <= hi
  {
    if |s| > WindowSize {
      forall i | 0 <= i < |Window(s)|
        ensures lo <= Window(s)[i] <= hi
      {
        assert Window(s)[i] == s[|s| - WindowSize + i];
      }
    }
  }

  /** The reported mean lies in the range of the episode rewards, and the
      reported win rate in [0, 100]. */
  lemma ProgressBounds(rewards: seq<int>, wins: seq<bool>)
    requires |rewards| == |wins| > 0
    requires forall i :: 0 <= i < |rewards| ==> MinEpisodeReward <= rewards[i] <= MaxEpisodeReward
    ensures MinEpisodeReward as real <= ProgressAt(rewards, wins).avgReward <= MaxEpisodeReward as real
    ensures 0.0 <= ProgressAt(rewards, wins).winRate <= 100.0
  {
    var w := Window(rewards);
    WindowEntries(rewards, MinEpisodeReward, MaxEpisodeReward);
    SumBounds(w, MinEpisodeReward, MaxEpisodeReward);
    var n := |w| as real;
    var sum := Sum(w) as real;
    assert n * (MinEpisodeReward as real) <= sum <= n * (MaxEpisodeReward as real);
    DivBounds(sum, n, MinEpisodeReward as real, MaxEpisodeReward as real);
  }

  lemma DivBounds(sum: real, n: real, lo: real, hi: real)
    requires n > 0.0 && n * lo <= sum <= n * hi
    ensures lo <= sum / n <= hi
  {
  }

  /** The decay count and the report count advance exactly on the episodes
      the training loop tests for. */
  lemma CountersStep(ep: nat)
    ensures AlphaDecays(ep + 1) == AlphaDecays(ep) + (if ep % 100 == 0 then 1 else 0)
    ensures (ep + 1) / 50 == ep / 50 + (if ep % 50 == 49 then 1 else 0)
  {
  }

  /** Appending leaves every earlier prefix alone. */
  lemma PrefixesKept<T>(s: seq<T>, x: T)
    ensures forall m :: 0 <= m <= |s| ==> (s + [x])[..m] == s[..m]
    ensures (s + [x])[..|s| + 1] == s + [x]
  {
  }

  /** Every report so far carries the statistics of the episodes before it. */
  ghost predicate ReportsMatch(reports: seq<Progress>, rewards: seq<int>, wins: seq<bool>)
  {
    && |rewards| == |wins|
    && 50 * |reports| <= |rewards|
    && forall k :: 0 <= k < |reports| ==>
         reports[k] == ProgressAt(rewards[..50 * (k + 1)], wins[..50 * (k + 1)])
  }

  lemma ReportsExtend(reports: seq<Progress>, rewards: seq<int>, wins: seq<bool>, r: int, w: bool)
    requires ReportsMatch(reports, rewards, wins)
    ensures ReportsMatch(reports, rewards + [r], wins + [w])
  {
    PrefixesKept(rewards, r);
    PrefixesKept(wins, w);
  }

  lemma ReportsAppend(reports: seq<Progress>, rewards: seq<int>, wins: seq<bool>)
    requires ReportsMatch(reports, rewards, wins)
    requires |rewards| == 50 * (|reports| + 1)
    ensures ReportsMatch(reports + [ProgressAt(rewards, wins)], rewards, wins)
  {
    assert rewards[..|rewards|] == rewards;
    assert wins[..|wins|] == wins;
  }

  /** One round of an episode: the board before the agent's move, the cell
      the agent took, what `get_reward('O')` gave for it, and the expert's
      reply, `None` when the agent's move ended the game. */
  datatype Round = Round(before: Board, action: Pos, reward: int, reply: Option<Pos>)

  function AfterAgent(rd: Round): Board
  {
    rd.before[rd.action := O]
  }

  function AfterRound(rd: Round): Board
  {
    if rd.reply.Some? then AfterAgent(rd)[rd.reply.value := X] else AfterAgent(rd)
  }

  /** The agent took an empty cell, blocking an 'X' threat when there was
      one; its reward is the shaped reward of the board it left; the expert
      replied unless that move gave 'O' a line or filled the board, and the
      reply is one `expert_move('X')` may give. */
  ghost predicate RoundPlayed(rd: Round)
  {
    && rd.before[rd.action] == Empty
    && (Threats(rd.before, X) != {} ==> rd.action in Threats(rd.before, X))
    && rd.reward == GetReward(AfterAgent(rd), O)
    && (rd.reply.None? <==> HasLine(AfterAgent(rd), O) || IsDraw(AfterAgent(rd)))
    && (rd.reply.Some? ==> ExpertMay(AfterAgent(rd), X, rd.reply) && AfterAgent(rd)[rd.reply.value] == Empty)
  }

  /** The game goes on after the round: the expert replied without
      completing a line of 'X'. */
  ghost predicate Continues(rd: Round)
  {
    rd.reply.Some? && !HasLine(AfterRound(rd), X)
  }

  /** The history awaits the agent's next move: it is empty or its last
      round left the game going. */
  ghost predicate AwaitsAgent(h: seq<Round>)
  {
    h == [] || Continues(h[|h| - 1])
  }

  /** The board a history of rounds has reached. */
  function Reached(h: seq<Round>): Board
  {
    if h == [] then EmptyBoard else AfterRound(h[|h| - 1])
  }

  /** The rounds were played in order from the empty board: each starts
      where the one before it ended, and every round but the last left the
      game going. */
  ghost predicate Played(h: seq<Round>)
  {
    if h == [] then true
    else
      var init := h[..|h| - 1];
      && Played(init)
      && AwaitsAgent(init)
      && h[|h| - 1].before == Reached(init)
      && RoundPlayed(h[|h| - 1])
  }

  /** The sum of the agent's per-move rewards. */
  function TurnRewards(h: seq<Round>): int
  {
    if h == [] then 0 else TurnRewards(h[..|h| - 1]) + h[|h| - 1].reward
  }

  /** Appending a round played from the board reached extends the history. */
  lemma PlayedExtend(h: seq<Round>, rd: Round)
    requires Played(h) && AwaitsAgent(h)
    requires rd.before == Reached(h) && RoundPlayed(rd)
    ensures Played(h + [rd])
    ensures Reached(h + [rd]) == AfterRound(rd)
    ensures TurnRewards(h + [rd]) == TurnRewards(h) + rd.reward
  {
    assert (h + [rd])[..|h|] == h;
  }

  /** What one finished episode records:
      - the history was played in order from the empty board, reached the
        final board and stopped there;
      - the total reward is the sum of the agent's per-move rewards, plus
        the loss penalty when 'X' completed a line;
      - that total lies in the episode range;
      - the win flag holds exactly when 'O' completed a line on the final
        board, and a win carries at least the win reward;
      - a negative total only comes with a line of 'X'. */
  ghost predicate EpisodeOutcome(reward: int, won: bool, final: Board, h: seq<Round>)
  {
    && h != [] && Played(h) && !AwaitsAgent(h) && final == Reached(h)
    && reward == TurnRewards(h) + (if HasLine(final, X) then LossPenalty else 0)
    && MinEpisodeReward <= reward <= MaxEpisodeReward
    && (won <==> HasLine(final, O))
    && (won ==> reward >= WinReward)
    && (reward < 0 ==> HasLine(final, X))
  }

  /** The monitoring data of a run: one reward, win flag, final board and
      history per episode, each with the outcome of an episode played by the
      rules, and with a callback one report per 50 episodes. */
  ghost predicate Logged(rewards: seq<int>, wins: seq<bool>, finals: seq<Board>, histories: seq<seq<Round>>,
                         reports: seq<Progress>, reporting: bool)
  {
    && AllOutcomes(rewards, wins, finals, histories)
    && |reports| == (if reporting then |rewards| / 50 else 0)
    && ReportsMatch(reports, rewards, wins)
  }

  /** The bookkeeping after an episode: its reward and win flag (with its
      final board and history) are appended, and with a callback every
      fiftieth episode adds a report over the logs so far. */
  method Record(rewards: seq<int>, wins: seq<bool>, finals: seq<Board>, histories: seq<seq<Round>>,
                reports: seq<Progress>, reporting: bool, r: int, won: bool, final: Board, h: seq<Round>)
    returns (rewards': seq<int>, wins': seq<bool>, finals': seq<Board>, histories': seq<seq<Round>>,
             reports': seq<Progress>)
    requires Logged(rewards, wins, finals, histories, reports, reporting)
    requires AllOutcomes(rewards + [r], wins + [won], finals + [final], histories + [h])
    ensures Logged(rewards', wins', finals', histories', reports', reporting)
    ensures rewards' == rewards + [r] && wins' == wins + [won]
    ensures finals' == finals + [final] && histories' == histories + [h]
    ensures reports' == if reporting && |rewards| % 50 == 49 then reports + [ProgressAt(rewards', wins')] else reports
  {
    ReportsExtend(reports, rewards, wins, r, won);
    CountersStep(|rewards|);
    rewards', wins' := rewards + [r], wins + [won];
    finals', histories' := finals + [final], histories + [h];
    reports' := reports;
    if reporting && |rewards| % 50 == 49 {
      ReportsAppend(reports, rewards', wins');
      reports' := reports + [ProgressAt(rewards', wins')];
    }
  }

  /** The end of episode `ep`: α decays when `ep % 100 == 0`, so after it
      α has decayed once for each such episode so far. */
  method DecayAfterEpisode(t: Trainer, a0: real, ep: nat) returns (t': Trainer)
    requires t.alpha == AlphaAfter(a0, AlphaDecays(ep))
    ensures t'.alpha == AlphaAfter(a0, AlphaDecays(ep + 1))
    ensures t'.q == t.q && t'.epsilon == t.epsilon
    ensures InRange(t) ==> InRange(t')
  {
    CountersStep(ep);
    t' := t;
    if ep % 100 == 0 {
      t' := t.(alpha := DecayAlpha(t.alpha));
    }
  }

  /** Every episode of a run, with its reward, win flag, final board and
      history, has the outcome of an episode played by the rules. */
  ghost predicate AllOutcomes(rewards: seq<int>, wins: seq<bool>, finals: seq<Board>, histories: seq<seq<Round>>)
  {
    && |rewards| == |wins| == |finals| == |histories|
    && forall i :: 0 <= i < |rewards| ==> EpisodeOutcome(rewards[i], wins[i], finals[i], histories[i])
  }

  lemma OutcomesExtend(rewards: seq<int>, wins: seq<bool>, finals: seq<Board>, histories: seq<seq<Round>>,
                       r: int, won: bool, final: Board, h: seq<Round>)
    requires AllOutcomes(rewards, wins, finals, histories) && EpisodeOutcome(r, won, final, h)
    ensures AllOutcomes(rewards + [r], wins + [won], finals + [final], histories + [h])
  {
  }

  /** The rewards of a run all lie in the episode range. */
  lemma OutcomeRewardBounds(rewards: seq<int>, wins: seq<bool>, finals: seq<Board>, histories: seq<seq<Round>>)
    requires AllOutcomes(rewards, wins, finals, histories)
    ensures forall i :: 0 <= i < |rewards| ==> MinEpisodeReward <= rewards[i] <= MaxEpisodeReward
  {
  }

  /** Reports over rewards in the episode range carry a mean in that range
      and a win rate in [0, 100]. */
  lemma ReportBounds(reports: seq<Progress>, rewards: seq<int>, wins: seq<bool>)
    requires ReportsMatch(reports, rewards, wins)
    requires forall i :: 0 <= i < |rewards| ==> MinEpisodeReward <= rewards[i] <= MaxEpisodeReward
    ensures forall k :: 0 <= k < |reports| ==>
              && reports[k].episode == 50 * (k + 1)
              && 0.0 <= reports[k].winRate <= 100.0
              && MinEpisodeReward as real <= reports[k].avgReward <= MaxEpisodeReward as real
  {
    forall k | 0 <= k < |reports|
      ensures && reports[k].episode == 50 * (k + 1)
              && 0.0 <= reports[k].winRate <= 100.0
              && MinEpisodeReward as real <= reports[k].avgReward <= MaxEpisodeReward as real
    {
      ProgressBounds(rewards[..50 * (k + 1)], wins[..50 * (k + 1)]);
    }
  }

  /** The agent's half of a round on a board where 'X' has no line: pick a
      cell, score the board after placing 'O' there, update the table. The
      reward can then only be the win bonus, the block bonus, the draw bonus
      or 0. */
  method AgentTurn(t: Trainer, board: Board) returns (t': Trainer, action: Pos, r: int)
    requires !IsDraw(board) && !HasLine(board, X)
    ensures board[action] == Empty
    ensures 0 <= r <= WinReward
    ensures r == WinReward <==> HasLine(board[action := O], O)
    ensures r != WinReward ==> r <= BlockReward
    ensures r == GetReward(board[action := O], O)
    ensures Threats(board, X) != {} ==> action in Threats(board, X)
    ensures t'.q.Keys == t.q.Keys + {board}
    ensures forall s :: s in t.q && s != board ==> t'.q[s] == t.q[s]
    ensures t'.q[board][action] ==
              Clip(TDStep(Lookup(t.q, board)[action], t.alpha, r as real, MaxNext(Touch(t.q, board), board[action := O])), QMin, QMax)
    ensures forall a: Pos :: a != action ==> t'.q[board][a] == Lookup(t.q, board)[a]
    ensures t'.epsilon == if Threats(board, X) != {} then t.epsilon else DecayEpsilon(t.epsilon)
    ensures t'.alpha == t.alpha
    ensures InRange(t) ==> InRange(t')
  {
    var coin: real :| 0.0 <= coin < 1.0;
    assert |ZeroRow| == 9;  // a witness for the jitter draw below
    var jitter: seq<real> :| |jitter| == 9;
    var choice;
    choice, t' := ChooseAction(t, board, coin, jitter);
    action := choice.value;
    var after := board[action := O];
    PlaceKeepsOtherLines(board, action, O, X);
    r := GetReward(after, O);
    t' := t'.(q := UpdateQ(t'.q, t'.alpha, board, action, after, r as real));
  }

  /** The expert's reply to the agent's move `action` on `board`, which left
      `after` with no line and a free cell, and the loss update of
      `Q[board][action]` toward -15 when the reply completes a line of 'X'. */
  method ExpertTurn(t: Trainer, board: Board, action: Pos, after: Board)
    returns (t': Trainer, reply: Option<Pos>, next: Board)
    requires !IsDraw(after) && !HasLine(after, O) && !HasLine(after, X)
    ensures ExpertMay(after, X, reply) && reply.Some? && after[reply.value] == Empty
    ensures next == after[reply.value := X]
    ensures !HasLine(next, O)
    ensures Count(next, O) == Count(after, O) && Count(next, X) == Count(after, X) + 1
    ensures Count(next, Empty) == Count(after, Empty) - 1
    ensures t' == if HasLine(next, X) then t.(q := UpdateQ(t.q, t.alpha, board, action, next, LossPenalty as real)) else t
    ensures t'.alpha == t.alpha
    ensures InRange(t) ==> InRange(t')
    ensures t.q.Keys <= t'.q.Keys
  {
    reply := ExpertMove(after, X);
    var cell := reply.value;
    PlaceCounts(after, cell, X);
    PlaceKeepsOtherLines(after, cell, X, O);
    next := after[cell := X];
    t' := t;
    if CheckWin(next, X) {
      t' := t'.(q := UpdateQ(t.q, t.alpha, board, action, next, LossPenalty as real));
    }
  }

  /** One round from a board where neither side has a line and a cell is
      free: the agent's turn, then, unless that ended the game, the expert's
      reply. `next` is the board the round leaves and `ended` says whether
      the agent's move ended the game. */
  method PlayRound(t: Trainer, board: Board) returns (t': Trainer, rd: Round, next: Board, ended: bool)
    requires !IsDraw(board) && !HasLine(board, O) && !HasLine(board, X)
    ensures rd.before == board && RoundPlayed(rd) && next == AfterRound(rd)
    ensures ended <==> rd.reply.None?
    ensures ended <==> HasLine(AfterAgent(rd), O) || IsDraw(AfterAgent(rd))
    ensures 0 <= rd.reward <= WinReward
    ensures rd.reward == WinReward <==> HasLine(next, O)
    ensures rd.reward != WinReward ==> rd.reward <= BlockReward
    ensures ended ==> !HasLine(next, X) && (HasLine(next, O) || IsDraw(next))
    ensures !ended ==> !HasLine(next, O)
    ensures Count(next, O) == Count(board, O) + 1
    ensures Count(next, X) == Count(board, X) + (if ended then 0 else 1)
    ensures Count(next, Empty) == Count(board, Empty) - (if ended then 1 else 2)
    ensures HasLine(next, X) ==>
              exists q0: QTable {:trigger UpdateQ(q0, t.alpha, board, rd.action, next, LossPenalty as real)} ::
                t'.q == UpdateQ(q0, t.alpha, board, rd.action, next, LossPenalty as real)
    ensures t'.alpha == t.alpha
    ensures InRange(t) ==> InRange(t')
    ensures t.q.Keys <= t'.q.Keys
  {
    var action, r;
    t', action, r := AgentTurn(t, board);
    PlaceCounts(board, action, O);
    PlaceKeepsOtherLines(board, action, O, X);
    var after := board[action := O];
    ended := CheckWin(after, O) || IsDraw(after);
    if ended {
      rd := Round(board, action, r, None);
      next := after;
    } else {
      var reply;
      t', reply, next := ExpertTurn(t', board, action, after);
      rd := Round(board, action, r, reply);
    }
  }

  /** One round appended to the history `h`: `next` is the board it leaves,
      `r` the agent's reward and `ended` whether the agent's move ended the
      game. */
  method Advance(t: Trainer, board: Board, h: seq<Round>)
    returns (t': Trainer, h': seq<Round>, next: Board, r: int, ended: bool)
    requires !IsDraw(board) && !HasLine(board, O) && !HasLine(board, X)
    requires Played(h) && AwaitsAgent(h) && Reached(h) == board
    ensures |h'| == |h| + 1 && h'[..|h|] == h
    ensures Played(h') && Reached(h') == next
    ensures TurnRewards(h') == TurnRewards(h) + r
    ensures ended <==> h'[|h|].reply.None?
    ensures 0 <= r <= WinReward
    ensures r == WinReward <==> HasLine(next, O)
    ensures r != WinReward ==> r <= BlockReward
    ensures ended ==> !HasLine(next, X) && (HasLine(next, O) || IsDraw(next))
    ensures !ended ==> !HasLine(next, O)
    ensures Count(next, O) == Count(board, O) + 1
    ensures Count(next, X) == Count(board, X) + (if ended then 0 else 1)
    ensures Count(next, Empty) == Count(board, Empty) - (if ended then 1 else 2)
    ensures HasLine(next, X) ==>
              exists a: Pos, q0: QTable {:trigger UpdateQ(q0, t.alpha, board, a, next, LossPenalty as real)} ::
                t'.q == UpdateQ(q0, t.alpha, board, a, next, LossPenalty as real)
    ensures t'.alpha == t.alpha
    ensures InRange(t) ==> InRange(t')
    ensures t.q.Keys <= t'.q.Keys
  {
    var rd;
    t', rd, next, ended := PlayRound(t, board);
    r := rd.reward;
    PlayedExtend(h, rd);
    h' := h + [rd];
    assert h'[..|h|] == h;
  }

  /** The state between rounds: the history `h` has been played, it awaits
      the agent's move, it has left `board` with neither side on a line,
      and `reward` is the sum of its turn rewards. */
  ghost predicate Midgame(h: seq<Round>, board: Board, reward: int) {
    && |h| <= 4 && Played(h) && AwaitsAgent(h) && Reached(h) == board
    && reward == TurnRewards(h) && 0 <= reward <= 20 * |h|
    && Count(board, O) == |h| && Count(board, X) == |h| && Count(board, Empty) == 9 - 2 * |h|
    && !HasLine(board, O) && !HasLine(board, X)
  }

  /** One pass of the episode loop: a round, then the loss penalty when the
      expert's reply completed a line of 'X'. `ended` says whether the loop
      stops here and `won` whether 'O' won. */
  method Step(t: Trainer, board: Board, h: seq<Round>, reward: int)
    returns (t': Trainer, h': seq<Round>, next: Board, reward': int, won: bool, ended: bool)
    requires Midgame(h, board, reward)
    ensures |h'| == |h| + 1
    ensures !ended ==> Midgame(h', next, reward')
    ensures ended ==> EpisodeOutcome(reward', won, next, h')
    ensures ended ==> !(HasLine(next, O) && HasLine(next, X))
    ensures ended ==> HasLine(next, O) || HasLine(next, X) || IsDraw(next)
    ensures ended ==> Count(next, O) == |h'| && (Count(next, X) == |h'| || Count(next, X) + 1 == |h'|)
    ensures ended && HasLine(next, X) ==>
              exists s: Board, a: Pos, q0: QTable {:trigger UpdateQ(q0, t.alpha, s, a, next, LossPenalty as real)} ::
                t'.q == UpdateQ(q0, t.alpha, s, a, next, LossPenalty as real)
    ensures t'.alpha == t.alpha
    ensures InRange(t) ==> InRange(t')
    ensures t.q.Keys <= t'.q.Keys
  {
    var r, over;
    t', h', next, r, over := Advance(t, board, h);
    reward' := reward + r;
    won := false;
    ended := true;
    if over {
      won := CheckWin(next, O);
    } else if CheckWin(next, X) {
      reward' := reward' + LossPenalty;
    } else {
      ended := false;
    }
  }

  /** One self-play episode from an empty board. The agent's random draws
      are arbitrary, and `history` lists the rounds played. */
  method PlayEpisode(t: Trainer)
    returns (t': Trainer, reward: int, won: bool, final: Board, history: seq<Round>)
    ensures EpisodeOutcome(reward, won, final, history)
    ensures t'.alpha == t.alpha
    ensures InRange(t) ==> InRange(t')
    ensures t.q.Keys <= t'.q.Keys
    ensures !(HasLine(final, O) && HasLine(final, X))
    ensures HasLine(final, O) || HasLine(final, X) || IsDraw(final)
    ensures 1 <= |history| <= 5 && Count(final, O) == |history|
    ensures Count(final, X) == |history| || Count(final, X) + 1 == |history|
    ensures HasLine(final, X) ==>
              exists s: Board, a: Pos, q0: QTable {:trigger UpdateQ(q0, t.alpha, s, a, final, LossPenalty as real)} ::
                t'.q == UpdateQ(q0, t.alpha, s, a, final, LossPenalty as real)
  {
    var board := EmptyBoard;
    ResetBoard();
    reward := 0;
    t' := t;
    history := [];
    while true
      invariant Midgame(history, board, reward)
      invariant t'.alpha == t.alpha
      invariant InRange(t) ==> InRange(t')
      invariant t.q.Keys <= t'.q.Keys
      decreases 4 - |history|
    {
      var ended;
      t', history, board, reward, won, ended := Step(t', board, history, reward);
      if ended {
        final := board;
        return;
      }
    }
  }

  /** One pass of the training loop: play an episode, log it, decay α.
      `a0` is α before training and the logs hold the earlier episodes. */
  method RunEpisode(t: Trainer, a0: real, reporting: bool, rewards: seq<int>, wins: seq<bool>,
                    finals: seq<Board>, histories: seq<seq<Round>>, reports: seq<Progress>)
    returns (t': Trainer, rewards': seq<int>, wins': seq<bool>, finals': seq<Board>,
             histories': seq<seq<Round>>, reports': seq<Progress>)
    requires Logged(rewards, wins, finals, histories, reports, reporting)
    requires t.alpha == AlphaAfter(a0, AlphaDecays(|rewards|))
    ensures Logged(rewards', wins', finals', histories', reports', reporting)
    ensures |rewards'| == |rewards| + 1
    ensures t'.alpha == AlphaAfter(a0, AlphaDecays(|rewards'|))
    ensures InRange(t) ==> InRange(t')
    ensures t.q.Keys <= t'.q.Keys
  {
    var t2, r, won, final, history := PlayEpisode(t);
    OutcomesExtend(rewards, wins, finals, histories, r, won, final, history);
    rewards', wins', finals', histories', reports' :=
      Record(rewards, wins, finals, histories, reports, reporting, r, won, final, history);
    t' := DecayAfterEpisode(t2, a0, |rewards|);
  }

  /** `train(episodes=10000, callback=None)`. `reporting` says whether a
      callback was given; `reports` lists the arguments of its calls in order.
      A negative count, like `range` of one, runs no episode. Besides the
      per-episode rewards that AI.py returns, the model also returns the
      per-episode win flags the reports are computed from and the board each
      episode ended on. */
  method Train(t: Trainer, episodes: int := 10000, reporting: bool := false)
    returns (t': Trainer, rewards: seq<int>, wins: seq<bool>, finals: seq<Board>,
             histories: seq<seq<Round>>, reports: seq<Progress>)
    ensures |rewards| == |wins| == |finals| == |histories| == if episodes < 0 then 0 else episodes
    ensures forall i :: 0 <= i < |rewards| ==> EpisodeOutcome(rewards[i], wins[i], finals[i], histories[i])
    ensures |reports| == if reporting then |rewards| / 50 else 0
    ensures forall k :: 0 <= k < |reports| ==>
              reports[k] == ProgressAt(rewards[..50 * (k + 1)], wins[..50 * (k + 1)])
    ensures forall k :: 0 <= k < |reports| ==>
              && reports[k].episode == 50 * (k + 1)
              && 0.0 <= reports[k].winRate <= 100.0
              && MinEpisodeReward as real <= reports[k].avgReward <= MaxEpisodeReward as real
    ensures t'.alpha == AlphaAfter(t.alpha, AlphaDecays(|rewards|))
    ensures InRange(t) ==> InRange(t')
    ensures t.q.Keys <= t'.q.Keys
  {
    t' := t;
    rewards, wins, finals, histories, reports := [], [], [], [], [];
    var n: nat := if episodes < 0 then 0 else episodes;
    var ep := 0;
    while ep < n
      invariant ep <= n && |rewards| == ep
      invariant Logged(rewards, wins, finals, histories, reports, reporting)
      invariant t'.alpha == AlphaAfter(t.alpha, AlphaDecays(ep))
      invariant InRange(t) ==> InRange(t')
      invariant t.q.Keys <= t'.q.Keys
    {
      t', rewards, wins, finals, histories, reports :=
        RunEpisode(t', t.alpha, reporting, rewards, wins, finals, histories, reports);
      ep := ep + 1;
    }
    OutcomeRewardBounds(rewards, wins, finals, histories);
    ReportBounds(reports, rewards, wins);
  }
}
